=== FILE: README.md ===
# Telegram audio transcription bot — verified model of the message pipeline

The bot takes a voice note or an audio document from a chat, downloads it,
sends it to a speech-to-text service, writes the transcript into a `.txt`
file and a PDF, sends both back with a short preview, and removes its
working files. This project models the deterministic core of the message
handler `audio_handler` and of the PDF builder `create_pdf` in Dafny, and
proves properties of that model:

- which messages enter the pipeline, and as which media kind (`Classifier`);
- the working-file names under `temp_files`, built from the sender id, a
  one-second timestamp and the media kind (`Naming`, with the decimal
  rendering of the sender id);
- the texts the handler passes to `respond` and `edit`: the status
  messages, the completion message with its 500-character preview, and the
  error reply (`Messages`);
- the `.txt` artifact: a fixed header and the transcript verbatim
  (`TextArtifact`);
- the PDF body: the transcript split on `\n`, blank pieces dropped, every
  character outside Latin-1 replaced by `?`, and the fixed notice that
  follows when laying out a paragraph raises (`Pdf`);
- the order of the handler's steps, and what a failure at any step does to
  the steps after it, to the messages the user receives and to the files
  left behind (`Handler`).

Python's `str.split` on one character, `sep.join` and `startswith` live in
`Strings`, and `Option` in `Wrappers`.

Every external call is an abstract action in a run trace. The download,
the chat replies and edits, the transcription request, the file writes, the
upload, the status deletion and the file removals all work this way. An
`Env` value says which of them raises, if any, and with what message. It
also supplies the values the handler reads from outside: the transcript
the service returns, the filename timestamp, the two date stamps written
into the artifacts, and the paragraph, if any, at which PDF layout raises.

## Behaviour of note

- Working files are removed only on the success path. A run that fails
  after the download and before the audio is removed leaves the downloaded
  audio in `temp_files`
  (`Handler.FailureLeavesAudio`).
- File names carry no per-run token, so two runs of one sender within one
  second use the same paths. `Naming.OutputPathsDetermineRun` proves this
  in both directions.
- The filename timestamp and the date lines in the `.txt` file and the PDF
  come from three separate clock readings, so they are three independent
  inputs.
- Every text that starts with `/` is kept out of the audio pipeline,
  whether or not a command handler answers it.

## Model

| member | source | states |
|---|---|---|
| Classifier.Classify | telegram_audio_bot.py:143-155 | A text starting with `/` is ignored. Otherwise a message is processed exactly when it has a voice note, or a document whose MIME type is present and starts with `audio/`. It is processed as a voice note exactly when it has a voice note. An audio document carries its document's MIME type, and its message has no voice note. |
| Classifier.CommandNeverProcessed | telegram_audio_bot.py:143-144 | A message whose text starts with `/` is ignored, whatever attachment it carries. |
| Naming.IntDecimalRoundTrip | telegram_audio_bot.py:163-171 | The decimal rendering of the sender id in a file name is a well-formed decimal that reads back as the same id. |
| Naming.ExtensionAfterLastSlash | telegram_audio_bot.py:170 | The document extension holds no `/`. It is the suffix of the MIME type after its last `/`, or the whole MIME type when it has no `/`. |
| Naming.StemDeterminesRun | telegram_audio_bot.py:167-171 | Two stems `{kind}_{uid}_{ts}` with the same kind are equal exactly when the sender ids and the timestamps are equal. |
| Naming.FileNameDeterminesRun | telegram_audio_bot.py:167-192 | A working-file path in `temp_files` with a given kind and suffix determines the sender id and the timestamp, and is determined by them. |
| Naming.OutputPathsDetermineRun | telegram_audio_bot.py:184-192 | The `.txt` paths of two runs are equal exactly when their sender ids and second-resolution timestamps are equal, and likewise the `.pdf` paths. The same sender in the same second collides, and nothing else does. |
| Naming.AudioPathDeterminesRun | telegram_audio_bot.py:166-171 | For one media kind, the audio paths of two runs are equal exactly when their sender ids and timestamps are equal. |
| Naming.WorkingFilesDistinct | telegram_audio_bot.py:166-192 | The `.txt` and `.pdf` paths are `temp_files/transcription_{uid}_{ts}` plus `.txt` and `.pdf`. The three working files of a run are pairwise distinct. |
| Strings.SplitWithoutSeparator | telegram_audio_bot.py:82 | A split yields more than one piece exactly when the string holds the separator. Without a separator, the only piece is the whole string. |
| Strings.SplitPiecesLackSeparator | telegram_audio_bot.py:170 | No piece of a split holds the separator. |
| Strings.JoinSplit | telegram_audio_bot.py:82 | Joining the pieces of a split with the separator gives back the original string. |
| Strings.SplitAround | telegram_audio_bot.py:82 | The pieces of `a + sep + b` are the pieces of `a` followed by the pieces of `b`. |
| Strings.SplitJoin | telegram_audio_bot.py:82 | Splitting the join of separator-free pieces gives back those pieces. |
| Strings.LastPieceFollowsLastSeparator | telegram_audio_bot.py:170 | The last piece of a split is a suffix of the string. When shorter than the string, it is directly preceded by the separator. |
| Messages.Preview | telegram_audio_bot.py:200 | The preview has at most 503 characters. It is either a prefix of the transcript, or a 500-character prefix of the transcript followed by `...`. |
| Messages.PreviewCases | telegram_audio_bot.py:200 | A transcript of at most 500 characters is previewed whole. A longer one is previewed as its first 500 characters followed by `...`. |
| Messages.PreviewBoundary | telegram_audio_bot.py:200 | A 500-character transcript is previewed verbatim. A 501-character one is cut to 500 characters followed by `...`. |
| Messages.Completion | telegram_audio_bot.py:200 | The completion message starts with the fixed header and is at most 503 characters longer than it. After the header comes the whole transcript when it has at most 500 characters, and otherwise its first 500 characters followed by `...`. |
| Messages.ErrorReply | telegram_audio_bot.py:215-217 | The error reply starts with `Error processing audio: ` and holds the failure text verbatim, followed by exactly the fixed suffix `\n\nPlease try again or contact support.`. |
| Messages.OnlyErrorRepliesAreErrors | telegram_audio_bot.py:159-217 | The error reply reads as an error report. The acknowledgement, both status texts and every completion message do not. |
| TextArtifact.Rule | telegram_audio_bot.py:188 | The rule line is exactly 50 `-` characters, so it holds no line break. |
| TextArtifact.Compose | telegram_audio_bot.py:185-189 | The `.txt` content starts with the title line. The second line is `Date: ` followed by the date stamp, ending in a line break. Then come 50 `-` characters and two line breaks. The content is 79 characters plus the date stamp and the transcript long, and it ends with the transcript, unchanged. |
| TextArtifact.TranscriptReadsBack | telegram_audio_bot.py:186-189 | Skipping the four header lines of the `.txt` content gives back the transcript exactly, whatever it contains, when the date stamp is one line. |
| Pdf.TrimStartFacts | telegram_audio_bot.py:84 | `lstrip` removes only whitespace. What it keeps is empty or starts with a non-whitespace character. |
| Pdf.TrimEndFacts | telegram_audio_bot.py:84 | `rstrip` removes only whitespace. What it keeps is empty or ends with a non-whitespace character. |
| Pdf.StripEmptyIffBlank | telegram_audio_bot.py:84 | `strip()` is non-empty exactly when the paragraph holds a non-whitespace character. |
| Pdf.StripGuard | telegram_audio_bot.py:84-87 | A piece is drawn, after the Latin-1 round trip, exactly when its `strip()` is non-empty. |
| Pdf.ToLatin1Chars | telegram_audio_bot.py:86 | The `encode("latin-1", "replace").decode("latin-1")` round trip keeps every character below 256 and replaces every other character with `?`. Its result is all Latin-1. |
| Pdf.ToLatin1Fixes | telegram_audio_bot.py:86 | The round trip leaves a string unchanged exactly when the string is all Latin-1. Applying it twice is the same as applying it once. |
| Pdf.ToLatin1KeepsText | telegram_audio_bot.py:84-86 | Replacement never turns a paragraph with text into a blank one. |
| Pdf.RenderPieceFacts | telegram_audio_bot.py:84-87 | A drawn piece is Latin-1 and holds text. A piece that already is both is drawn unchanged. |
| Pdf.RenderedAreLatin1 | telegram_audio_bot.py:82-88 | Every drawn paragraph is all Latin-1. |
| Pdf.RenderedHaveText | telegram_audio_bot.py:82-88 | Every drawn paragraph holds a non-whitespace character. |
| Pdf.RenderedComeFromPieces | telegram_audio_bot.py:82-88 | Every drawn paragraph is the round trip of some `\n`-piece that holds text. |
| Pdf.TextPiecesAreRendered | telegram_audio_bot.py:82-88 | Every `\n`-piece that holds text is drawn, after the round trip. |
| Pdf.RenderPiecesAppend | telegram_audio_bot.py:83-88 | The loop over two lists of pieces draws what it draws for the first list, then what it draws for the second. |
| Pdf.ParagraphsAround | telegram_audio_bot.py:82-88 | The paragraphs of `a + "\n" + b` are the paragraphs of `a` followed by those of `b`, so the transcript's order is kept. |
| Pdf.ParagraphsOfLine | telegram_audio_bot.py:82-88 | A single line with text becomes exactly one paragraph, its round trip. A blank line becomes none. |
| Pdf.ParagraphsLossless | telegram_audio_bot.py:82-88 | For a Latin-1 transcript without blank lines, joining the paragraphs with `\n` gives back the transcript. |
| Pdf.ParagraphsAreLatin1 | telegram_audio_bot.py:82-88 | Every paragraph of a transcript is all Latin-1. |
| Pdf.Body | telegram_audio_bot.py:81-93 | Without a layout failure, or when the failing index is past the last paragraph, the body is the paragraphs. When laying out paragraph `k` fails, the body is the first `k` paragraphs followed by the fixed notice, and nothing after it. |
| Pdf.BodyIsLatin1 | telegram_audio_bot.py:81-93 | Every line of the body, the fallback notice included, is all Latin-1. |
| Handler.Handle | telegram_audio_bot.py:143-217 | A message is ignored, with no action, exactly when the classifier ignores it. A processed run completes exactly when no step raises. An aborted run records the failing step and its message. Its actions are the steps of the successful run up to and including the failing one, followed by the error reply for that message. |
| Handler.SuccessfulRun | telegram_audio_bot.py:157-211 | A run in which nothing raises takes the twelve steps in the source's order: acknowledgement, download, status edit, transcription, `.txt`, PDF, status edit, upload with the preview, status deletion, and removal of the three files. It sends no error, creates the three working files and leaves none behind. |
| Handler.PlanCleansUp | telegram_audio_bot.py:173-210 | The steps of a successful run create exactly the three working files and remove exactly those. |
| Handler.AbortedRun | telegram_audio_bot.py:157-217 | A failure at a step turns the run into the successful run cut right after that step, followed by one error reply with the failure text. Every later step, file removal included, is missing, and the user gets exactly one error report. |
| Handler.AbortedLeftover | telegram_audio_bot.py:173-217 | An aborted run leaves behind the files the steps before the failing one created and did not remove. |
| Handler.FailureLeavesAudio | telegram_audio_bot.py:173-217 | A failure after the download and up to the removal of the audio leaves the downloaded audio in `temp_files`. |
| Handler.TranscriptionFailure | telegram_audio_bot.py:177-217 | When the transcription call raises, no artifact is written or sent. The run ends with the error reply, and the user gets exactly one error report. |
| Handler.TranscriptionFailureLeftover | telegram_audio_bot.py:173-217 | After a transcription failure, the downloaded audio is the only working file left. |

## Left out

- The Telegram client, event registration, `download_media`, `respond`, `edit` and `delete` are network I/O. They appear only as abstract actions in the run trace. The chosen step either raises or succeeds, and nothing else about the network is modelled.
- Telethon parses the texts passed to `respond` and `edit` as Markdown before sending them, so `**`, `__`, `~~`, backquotes and links in the completion header, the preview or the failure text become formatting. `Messages` records each text as the handler passes it, not as the chat displays it.
- The Whisper request in `transcribe_audio` is a call to a remote service. Its result is an arbitrary input string in `Env`, and its failure is a fault of the transcription step.
- FPDF layout, fonts, cell sizes, line wrapping, page breaks and the page header and footer belong to the rendering library. The PDF is modelled as its title, its date line and its body paragraphs.
- `Pdf.Body`: a layout exception is modelled per paragraph: either drawing one paragraph fails or nothing fails. Which paragraph fails is an input, because it depends on the library.
- `datetime.now()` and its formatting are inputs: one timestamp for the file names and two date stamps for the artifacts, passed as opaque strings.
- Environment loading, credential checks, logging, `os.makedirs`, `main` and the static `/start` and `/help` texts are process start-up or fixed text, with no logic to model.
- Handler.AbortedLeftover: a step that raises is assumed to have no effect on the working directory. A download or a file write that fails halfway is treated as not having created its file.
- Handler.Handle: a failure of the error reply itself, which would escape the handler, is not modelled.
- The sender id is an integer. A message without a sender, for which Python would render `None` in the file name, is not modelled.
- The host is assumed to be POSIX: paths are joined with `/`, and the `.txt` file is written without newline translation. On Windows `os.path.join` uses `\` and text-mode writes turn every `\n`, the transcript's included, into `\r\n`, so `TextArtifact.TranscriptReadsBack` and the path lemmas of `Naming` describe the POSIX behaviour only.
- Concurrency between runs on the event loop is not modelled. Runs are studied one at a time, and the shared-path collision is stated as a property of the names.

=== FILE: classifier.dfy ===
/**
 The attachment classifier at the top of `audio_handler`: which inbound
 messages enter the transcription pipeline, and as which media kind.
 */
module Classifier {

  import opened Wrappers
  import opened Strings

  /** A document attachment; Telegram may omit its MIME type. */
  datatype Document = Document(mimeType: Option<string>)

  /** The parts of an inbound message the handler looks at: its text
      (empty when there is none), whether it carries a voice note, and its
      document attachment, if any. */
  datatype Message = Message(text: string, voice: bool, document: Option<Document>)

  /** What the pipeline was started for. */
  datatype MediaKind = VoiceNote | AudioDocument(mimeType: string)

  datatype Verdict = Ignore | Process(kind: MediaKind)

  const AudioMimePrefix := "audio/"

  /** `text and text.startswith("/")`: an empty text is falsy. */
  predicate IsCommand(text: string)
  {
    text != "" && StartsWith(text, "/")
  }

  /** `mime_type and mime_type.startswith("audio/")`. */
  predicate IsAudioMime(mimeType: Option<string>)
  {
    mimeType.Some? && mimeType.value != "" && StartsWith(mimeType.value, AudioMimePrefix)
  }

  /** The two early returns of `audio_handler`, then the choice between
      the voice-note and the document path. */
  function Classify(m: Message): (v: Verdict)
    ensures |m.text| > 0 && m.text[0] == '/' ==> v == Ignore
    ensures v.Process? <==>
              && !(|m.text| > 0 && m.text[0] == '/')
              && (|| m.voice
                  || (&& m.document.Some?
                      && m.document.value.mimeType.Some?
                      && |m.document.value.mimeType.value| >= 6
                      && m.document.value.mimeType.value[..6] == "audio/"))
    ensures v == Process(VoiceNote) <==> !(|m.text| > 0 && m.text[0] == '/') && m.voice
    ensures v.Process? && v.kind.AudioDocument? ==>
              && !m.voice
              && m.document == Some(Document(Some(v.kind.mimeType)))
              && v.kind.mimeType[..6] == "audio/"
  {
    if IsCommand(m.text) then Ignore
    else if !(m.voice || (m.document.Some? && IsAudioMime(m.document.value.mimeType))) then Ignore
    else if m.voice then Process(VoiceNote)
    else Process(AudioDocument(m.document.value.mimeType.value))
  }

  /** A command is never processed, whatever attachment it carries. */
  lemma CommandNeverProcessed(text: string, voice: bool, document: Option<Document>)
    requires |text| > 0 && text[0] == '/'
    ensures Classify(Message(text, voice, document)) == Ignore
  {
  }
}

=== FILE: handler.dfy ===
/**
 The stage sequence of `audio_handler`. Every external step (a chat
 message, the download, a status edit, the transcription call, a file
 write, the upload, a deletion) is an abstract action that may raise. A run
 is the list of actions the handler attempts, in order, and how it ended.
 */
module Handler {

  import opened Wrappers
  import opened Classifier
  import opened Naming
  import opened Messages
  import opened Pdf
  import TextArtifact

  datatype Action =
    | Reply(text: string)                         // event.respond(text)
    | Download(path: string)                      // download_media(path)
    | EditStatus(text: string)                    // status_msg.edit(text)
    | Transcribe(path: string)                    // transcribe_audio(path)
    | WriteText(path: string, content: string)    // the `.txt` artifact
    | WritePdf(path: string, doc: PdfDoc)         // create_pdf(text, path)
    | ReplyWithFiles(text: string, files: seq<string>)
    | DeleteStatus                                // status_msg.delete()
    | Remove(path: string)                        // os.remove(path)

  /** The steps of a successful run, in the order the handler takes them. */
  datatype Step =
    | Acknowledge | DownloadAudio | AnnounceTranscribing | TranscribeAudio
    | WriteTextFile | WritePdfFile | AnnounceSending | SendResult
    | DeleteStatusMessage | RemoveAudio | RemoveText | RemovePdf

  const StepCount: nat := 12

  /** Position of a step in a successful run. */
  function Ordinal(s: Step): (i: nat)
    ensures i < StepCount
  {
    match s
    case Acknowledge => 0
    case DownloadAudio => 1
    case AnnounceTranscribing => 2
    case TranscribeAudio => 3
    case WriteTextFile => 4
    case WritePdfFile => 5
    case AnnounceSending => 6
    case SendResult => 7
    case DeleteStatusMessage => 8
    case RemoveAudio => 9
    case RemoveText => 10
    case RemovePdf => 11
  }

  /** The step that raised, and `str(e)` of the exception. */
  datatype Fault = Fault(step: Step, reason: string)

  /** Everything the handler gets from outside: the file-name timestamp,
      the two date stamps written into the artifacts, the transcript the
      service returns, whether PDF layout raises at some paragraph, and
      which step, if any, raises. */
  datatype Env = Env(
    timestamp: string,
    textDate: string,
    pdfDate: string,
    transcript: string,
    layoutFault: Option<nat>,
    fault: Option<Fault>)

  datatype Outcome = Ignored | Completed | Aborted(step: Step, reason: string)

  datatype Run = Run(actions: seq<Action>, outcome: Outcome)

  /** The three working files of a run. */
  datatype Files = Files(audio: string, txt: string, pdf: string)

  /** What a run produces from the transcript: the `.txt` content, the PDF
      and the completion message. */
  datatype Outputs = Outputs(textContent: string, doc: PdfDoc, completion: string)

  function FilesFor(kind: MediaKind, uid: int, timestamp: string): Files
  {
    Files(AudioPath(kind, uid, timestamp), TextPath(uid, timestamp), PdfPath(uid, timestamp))
  }

  function OutputsFor(env: Env): Outputs
  {
    Outputs(
      TextArtifact.Compose(env.textDate, env.transcript),
      CreatePdf(env.transcript, env.pdfDate, env.layoutFault),
      Completion(env.transcript))
  }

  /** The actions of a run in which nothing raises. */
  function Plan(f: Files, o: Outputs): (plan: seq<Action>)
    ensures |plan| == StepCount
  {
    [ Reply(Acknowledgement),
      Download(f.audio),
      EditStatus(TranscribingStatus),
      Transcribe(f.audio),
      WriteText(f.txt, o.textContent),
      WritePdf(f.pdf, o.doc),
      EditStatus(SendingStatus),
      ReplyWithFiles(o.completion, [f.txt, f.pdf]),
      DeleteStatus,
      Remove(f.audio),
      Remove(f.txt),
      Remove(f.pdf) ]
  }

  /** `audio_handler`: ignore ineligible messages; otherwise run the steps
      until one raises, and then send the error reply. */
  function Handle(m: Message, uid: int, env: Env): (run: Run)
    ensures run.outcome.Ignored? <==> Classify(m) == Ignore
    ensures run.outcome.Ignored? <==> run.actions == []
    ensures run.outcome.Completed? <==> Classify(m).Process? && env.fault.None?
    ensures run.outcome.Aborted? ==>
              && env.fault == Some(Fault(run.outcome.step, run.outcome.reason))
              && |run.actions| == Ordinal(run.outcome.step) + 2
              && run.actions[|run.actions| - 1] == Reply(ErrorReply(run.outcome.reason))
    ensures run.outcome.Aborted? ==>
              && Classify(m).Process?
              && run.actions[..|run.actions| - 1]
                 == Plan(FilesFor(Classify(m).kind, uid, env.timestamp), OutputsFor(env))[..Ordinal(run.outcome.step) + 1]
  {
    match Classify(m)
    case Ignore => Run([], Ignored)
    case Process(kind) =>
      var plan := Plan(FilesFor(kind, uid, env.timestamp), OutputsFor(env));
      match env.fault
      case None => Run(plan, Completed)
      case Some(Fault(step, reason)) =>
        Run(plan[..Ordinal(step) + 1] + [Reply(ErrorReply(reason))], Aborted(step, reason))
  }
  // ---------------------------------------------------------------------
  // Observations on a run

  predicate IsErrorMessage(a: Action)
  {
    (a.Reply? || a.ReplyWithFiles?) && IsErrorText(a.text)
  }

  /** How many error reports the user receives. */
  function ErrorMessages(actions: seq<Action>): nat
    decreases |actions|
  {
    if |actions| == 0 then 0
    else (if IsErrorMessage(actions[0]) then 1 else 0) + ErrorMessages(actions[1..])
  }

  /** No transcript artifact is written or sent. */
  predicate NoArtifacts(actions: seq<Action>)
  {
    forall a :: a in actions ==> !a.WriteText? && !a.WritePdf? && !a.ReplyWithFiles?
  }

  predicate CreatesFile(a: Action)
  {
    a.Download? || a.WriteText? || a.WritePdf?
  }

  /** The actions that took effect: a step that raised did nothing. */
  function Effective(run: Run): seq<Action>
  {
    match run.outcome
    case Aborted(step, _) =>
      if Ordinal(step) <= |run.actions| then run.actions[..Ordinal(step)] else []
    case _ => run.actions
  }

  function Created(actions: seq<Action>): set<string>
  {
    set a | a in actions && CreatesFile(a) :: a.path
  }

  function Removed(actions: seq<Action>): set<string>
  {
    set a | a in actions && a.Remove? :: a.path
  }

  /** The working files left in `temp_files` after a run (the handler
      never removes a file before it creates one). */
  function Leftover(run: Run): set<string>
  {
    Created(Effective(run)) - Removed(Effective(run))
  }

  // ---------------------------------------------------------------------
  // Properties

  lemma {:induction false} ErrorMessagesAppend(a: seq<Action>, b: seq<Action>)
    ensures ErrorMessages(a + b) == ErrorMessages(a) + ErrorMessages(b)
    decreases |a|
  {
    if |a| == 0 {
      assert a + b == b;
    } else {
      assert (a + b)[0] == a[0];
      assert (a + b)[1..] == a[1..] + b;
      ErrorMessagesAppend(a[1..], b);
    }
  }

  lemma {:induction false} NoErrorMessages(actions: seq<Action>)
    requires forall i :: 0 <= i < |actions| ==> !IsErrorMessage(actions[i])
    ensures ErrorMessages(actions) == 0
    decreases |actions|
  {
    if |actions| > 0 {
      NoErrorMessages(actions[1..]);
    }
  }

  predicate DistinctFiles(f: Files)
  {
    f.audio != f.txt && f.audio != f.pdf && f.txt != f.pdf
  }

  /** Nothing a run does before an error is an error report. */
  lemma PlanHasNoErrors(f: Files, o: Outputs, k: nat)
    requires !IsErrorText(o.completion)
    requires k <= StepCount
    ensures ErrorMessages(Plan(f, o)[..k]) == 0
  {
    var plan := Plan(f, o);
    OnlyErrorRepliesAreErrors("", "");
    forall i | 0 <= i < k
      ensures !IsErrorMessage(plan[..k][i])
    {
      assert plan[..k][i] == plan[i];
      assert i != 0 && i != 7 ==> !plan[i].Reply? && !plan[i].ReplyWithFiles?;
    }
    NoErrorMessages(plan[..k]);
  }

  /** With three distinct working files, every step is a different action. */
  lemma PlanDistinct(f: Files, o: Outputs)
    requires DistinctFiles(f)
    ensures forall i, j :: 0 <= i < j < StepCount ==> Plan(f, o)[i] != Plan(f, o)[j]
  {
    StatusesDiffer();
  }

  /** The success trace creates the three working files and removes them. */
  lemma PlanCleansUp(f: Files, o: Outputs)
    ensures Created(Plan(f, o)) == {f.audio, f.txt, f.pdf}
    ensures Removed(Plan(f, o)) == {f.audio, f.txt, f.pdf}
  {
    PlanCreates(f, o);
    PlanRemoves(f, o);
  }

  lemma PlanCreates(f: Files, o: Outputs)
    ensures Created(Plan(f, o)) == {f.audio, f.txt, f.pdf}
  {
    var plan := Plan(f, o);
    forall a | a in plan && CreatesFile(a)
      ensures a.path in {f.audio, f.txt, f.pdf}
    {
      var i :| 0 <= i < |plan| && plan[i] == a;
    }
    assert plan[1] == Download(f.audio) && plan[4].WriteText? && plan[5].WritePdf?;
  }

  lemma PlanRemoves(f: Files, o: Outputs)
    ensures Removed(Plan(f, o)) == {f.audio, f.txt, f.pdf}
  {
    var plan := Plan(f, o);
    forall a | a in plan && a.Remove?
      ensures a.path in {f.audio, f.txt, f.pdf}
    {
      var i :| 0 <= i < |plan| && plan[i] == a;
    }
    assert plan[9] == Remove(f.audio) && plan[10] == Remove(f.txt) && plan[11] == Remove(f.pdf);
  }

  /** A success trace cut before step `k` between the download and the
      removal of the audio file still holds the downloaded audio. */
  lemma PrefixKeepsAudio(f: Files, o: Outputs, k: nat)
    requires Ordinal(DownloadAudio) < k <= Ordinal(RemoveAudio)
    ensures f.audio in Created(Plan(f, o)[..k]) - Removed(Plan(f, o)[..k])
  {
    var pre := Plan(f, o)[..k];
    assert pre[1] == Download(f.audio);
    assert forall i :: 0 <= i < |pre| ==> !pre[i].Remove?;
  }

  /** The trace up to the transcription call creates only the audio file. */
  lemma BeforeTranscription(f: Files, o: Outputs)
    ensures var pre := Plan(f, o)[..Ordinal(TranscribeAudio)];
            Created(pre) == {f.audio} && Removed(pre) == {}
  {
    var pre := Plan(f, o)[..Ordinal(TranscribeAudio)];
    assert pre == [Reply(Acknowledgement), Download(f.audio), EditStatus(TranscribingStatus)];
  }

  /** A successful run sends the acknowledgement, downloads, announces the
      transcription, transcribes, writes the text and PDF artifacts,
      announces the upload, sends both files with the preview, deletes the
      status message and removes all three working files, in that order;
      it reports no error and leaves no working file behind. */
  lemma SuccessfulRun(m: Message, uid: int, env: Env)
    requires Classify(m).Process? && env.fault.None?
    ensures var kind := Classify(m).kind;
            var audio := AudioPath(kind, uid, env.timestamp);
            var txt := TextPath(uid, env.timestamp);
            var pdf := PdfPath(uid, env.timestamp);
            var run := Handle(m, uid, env);
            && run.outcome == Completed
            && run.actions == [
                 Reply(Acknowledgement), Download(audio), EditStatus(TranscribingStatus),
                 Transcribe(audio),
                 WriteText(txt, TextArtifact.Compose(env.textDate, env.transcript)),
                 WritePdf(pdf, CreatePdf(env.transcript, env.pdfDate, env.layoutFault)),
                 EditStatus(SendingStatus), ReplyWithFiles(Completion(env.transcript), [txt, pdf]),
                 DeleteStatus, Remove(audio), Remove(txt), Remove(pdf)]
            && ErrorMessages(run.actions) == 0
            && Created(run.actions) == {audio, txt, pdf}
            && Leftover(run) == {}
  {
    var f := FilesFor(Classify(m).kind, uid, env.timestamp);
    var o := OutputsFor(env);
    OnlyErrorRepliesAreErrors(env.transcript, "");
    PlanHasNoErrors(f, o, StepCount);
    assert Plan(f, o)[..StepCount] == Plan(f, o);
    PlanCleansUp(f, o);
  }

  /** A success trace cut after `k` steps and followed by an error reply
      reports exactly one error and holds none of the later steps. */
  lemma CutPlan(f: Files, o: Outputs, k: nat, reason: string)
    requires DistinctFiles(f) && !IsErrorText(o.completion)
    requires 1 <= k <= StepCount
    ensures var plan := Plan(f, o);
            var actions := plan[..k] + [Reply(ErrorReply(reason))];
            && ErrorMessages(actions) == 1
            && (forall j :: k <= j < StepCount ==> plan[j] !in actions)
  {
    var plan := Plan(f, o);
    var error := Reply(ErrorReply(reason));
    OnlyErrorRepliesAreErrors("", reason);
    PlanHasNoErrors(f, o, k);
    ErrorMessagesAppend(plan[..k], [error]);
    assert ErrorMessages([error]) == 1;
    PlanDistinct(f, o);
    assert forall i :: k <= i < |plan| ==> plan[i] != error;
    LaterStepsSkipped(plan, k, error);
  }

  /** A run that fails at some step is the successful run cut right after
      that step, followed by one error reply carrying the failure text:
      every later step, file removal included, is skipped. */
  lemma AbortedRun(m: Message, uid: int, env: Env, step: Step, reason: string)
    requires Classify(m).Process? && env.fault == Some(Fault(step, reason))
    ensures var run := Handle(m, uid, env);
            var success := Handle(m, uid, env.(fault := None)).actions;
            && run.outcome == Aborted(step, reason)
            && run.actions == success[..Ordinal(step) + 1] + [Reply(ErrorReply(reason))]
            && (forall t :: Ordinal(t) > Ordinal(step) ==> success[Ordinal(t)] !in run.actions)
            && ErrorMessages(run.actions) == 1
  {
    var kind := Classify(m).kind;
    var f := FilesFor(kind, uid, env.timestamp);
    var o := OutputsFor(env);
    assert OutputsFor(env.(fault := None)) == o;
    assert Handle(m, uid, env.(fault := None)).actions == Plan(f, o);
    assert Handle(m, uid, env).actions == Plan(f, o)[..Ordinal(step) + 1] + [Reply(ErrorReply(reason))];
    WorkingFilesDistinct(kind, uid, env.timestamp);
    OnlyErrorRepliesAreErrors(env.transcript, reason);
    CutPlan(f, o, Ordinal(step) + 1, reason);
  }

  /** Cutting a list of distinct actions after position `k` and appending an
      action that is not among them drops every later action. */
  lemma LaterStepsSkipped(plan: seq<Action>, k: nat, last: Action)
    requires k <= |plan|
    requires forall i, j :: 0 <= i < j < |plan| ==> plan[i] != plan[j]
    requires forall i :: k <= i < |plan| ==> plan[i] != last
    ensures forall j :: k <= j < |plan| ==> plan[j] !in plan[..k] + [last]
  {
  }

  /** An aborted run in terms of the success trace of the same message. */
  lemma AbortedIsCut(m: Message, uid: int, env: Env, step: Step, reason: string)
    requires Classify(m).Process? && env.fault == Some(Fault(step, reason))
    ensures var plan := Plan(FilesFor(Classify(m).kind, uid, env.timestamp), OutputsFor(env));
            Handle(m, uid, env) == Run(plan[..Ordinal(step) + 1] + [Reply(ErrorReply(reason))], Aborted(step, reason))
  {
  }

  /** What an aborted run leaves behind is what the success trace cut
      before the failing step created and did not remove. */
  lemma AbortedLeftover(m: Message, uid: int, env: Env, step: Step, reason: string)
    requires Classify(m).Process? && env.fault == Some(Fault(step, reason))
    ensures var plan := Plan(FilesFor(Classify(m).kind, uid, env.timestamp), OutputsFor(env));
            Leftover(Handle(m, uid, env)) == Created(plan[..Ordinal(step)]) - Removed(plan[..Ordinal(step)])
  {
    var plan := Plan(FilesFor(Classify(m).kind, uid, env.timestamp), OutputsFor(env));
    AbortedIsCut(m, uid, env, step, reason);
    LeftoverOfCut(plan, step, reason, Reply(ErrorReply(reason)));
  }

  lemma LeftoverOfCut(plan: seq<Action>, step: Step, reason: string, last: Action)
    requires Ordinal(step) < |plan|
    ensures var k := Ordinal(step);
            Leftover(Run(plan[..k + 1] + [last], Aborted(step, reason)))
              == Created(plan[..k]) - Removed(plan[..k])
  {
    var k := Ordinal(step);
    var cut := plan[..k + 1] + [last];
    assert cut[..k] == plan[..k];
  }

  /** A failure after the download and before the audio file is removed
      leaves the downloaded audio in `temp_files`: cleanup happens only on
      the success path. */
  lemma FailureLeavesAudio(m: Message, uid: int, env: Env, step: Step, reason: string)
    requires Classify(m).Process? && env.fault == Some(Fault(step, reason))
    requires Ordinal(DownloadAudio) < Ordinal(step) <= Ordinal(RemoveAudio)
    ensures AudioPath(Classify(m).kind, uid, env.timestamp) in Leftover(Handle(m, uid, env))
  {
    AbortedLeftover(m, uid, env, step, reason);
    PrefixKeepsAudio(FilesFor(Classify(m).kind, uid, env.timestamp), OutputsFor(env), Ordinal(step));
  }

  /** When the transcription service raises, no artifact is written and
      nothing is sent but one error reply containing the service's message. */
  lemma TranscriptionFailure(m: Message, uid: int, env: Env, reason: string)
    requires Classify(m).Process? && env.fault == Some(Fault(TranscribeAudio, reason))
    ensures var run := Handle(m, uid, env);
            && NoArtifacts(run.actions)
            && run.actions[|run.actions| - 1] == Reply(ErrorReply(reason))
            && ErrorMessages(run.actions) == 1
  {
    var f := FilesFor(Classify(m).kind, uid, env.timestamp);
    var o := OutputsFor(env);
    AbortedIsCut(m, uid, env, TranscribeAudio, reason);
    WorkingFilesDistinct(Classify(m).kind, uid, env.timestamp);
    OnlyErrorRepliesAreErrors(env.transcript, reason);
    TranscriptionCut(f, o, reason);
  }

  /** After a transcription failure the downloaded audio, and only it, is
      left in `temp_files`. */
  lemma TranscriptionFailureLeftover(m: Message, uid: int, env: Env, reason: string)
    requires Classify(m).Process? && env.fault == Some(Fault(TranscribeAudio, reason))
    ensures Leftover(Handle(m, uid, env)) == {AudioPath(Classify(m).kind, uid, env.timestamp)}
  {
    var f := FilesFor(Classify(m).kind, uid, env.timestamp);
    var o := OutputsFor(env);
    AbortedLeftover(m, uid, env, TranscribeAudio, reason);
    BeforeTranscription(f, o);
  }

  /** The success trace cut at the transcription call. */
  lemma TranscriptionCut(f: Files, o: Outputs, reason: string)
    requires DistinctFiles(f) && !IsErrorText(o.completion)
    ensures var plan := Plan(f, o);
            var run := Run(plan[..Ordinal(TranscribeAudio) + 1] + [Reply(ErrorReply(reason))], Aborted(TranscribeAudio, reason));
            && NoArtifacts(run.actions)
            && ErrorMessages(run.actions) == 1
  {
    var error := Reply(ErrorReply(reason));
    CutPlan(f, o, 4, reason);
    assert Plan(f, o)[..4] + [error]
        == [Reply(Acknowledgement), Download(f.audio), EditStatus(TranscribingStatus), Transcribe(f.audio), error];
  }
}

=== FILE: messages.dfy ===
/**
 The texts `audio_handler` passes to `respond` and `edit`: the status
 messages, the completion message with its bounded transcript preview, and
 the error reply.
 */
module Messages {

  import opened Strings

  const Acknowledgement := "Processing your audio... Please wait."
  const TranscribingStatus := "Transcribing audio with AI..."
  const SendingStatus := "Sending your transcription..."
  const CompletionHeader := "**Transcription Complete!**\n\nPreview:\n"
  const ErrorPrefix := "Error processing audio: "
  const ErrorSuffix := "\n\nPlease try again or contact support."

  const PreviewLimit: nat := 500
  const Ellipsis := "..."

  /** Python's `s[:n]`: at most the first `n` characters. */
  function Take(s: string, n: nat): string
  {
    if |s| <= n then s else s[..n]
  }

  /** The preview of the completion message: the first 500 characters, and
      the marker when anything was cut. */
  function Preview(transcript: string): (p: string)
    ensures |p| <= PreviewLimit + |Ellipsis|
    ensures || StartsWith(transcript, p)
            || (&& |p| == PreviewLimit + |Ellipsis|
                && StartsWith(transcript, p[..PreviewLimit])
                && p[PreviewLimit..] == Ellipsis)
  {
    Take(transcript, PreviewLimit) + (if |transcript| > PreviewLimit then Ellipsis else "")
  }

  /** A transcript of at most 500 characters is previewed whole, with no
      marker; a longer one by its first 500 characters and `...`, so the
      preview is a proper prefix of the transcript plus the marker. */
  lemma PreviewCases(transcript: string)
    ensures |transcript| <= PreviewLimit ==> Preview(transcript) == transcript
    ensures |transcript| > PreviewLimit ==>
              && |Preview(transcript)| == PreviewLimit + 3
              && Preview(transcript)[..PreviewLimit] == transcript[..PreviewLimit]
              && Preview(transcript)[PreviewLimit..] == "..."
              && Preview(transcript)[..PreviewLimit] != transcript
  {
  }

  /** The boundary: 500 characters are shown verbatim, 501 are cut. */
  lemma PreviewBoundary(t500: string, t501: string)
    requires |t500| == 500 && |t501| == 501
    ensures Preview(t500) == t500
    ensures Preview(t501) == t501[..500] + "..."
  {
  }

  /** The completion message sent together with the two files. */
  function Completion(transcript: string): (text: string)
    ensures StartsWith(text, CompletionHeader)
    ensures |text| <= |CompletionHeader| + PreviewLimit + |Ellipsis|
    ensures |transcript| <= PreviewLimit ==> text[|CompletionHeader|..] == transcript
    ensures |transcript| > PreviewLimit ==>
              text[|CompletionHeader|..] == transcript[..PreviewLimit] + Ellipsis
  {
    CompletionHeader + Preview(transcript)
  }

  /** The error reply: a fixed prefix, the exception's text and a fixed
      suffix. */
  function ErrorReply(reason: string): (text: string)
    ensures StartsWith(text, ErrorPrefix)
    ensures |text| == |ErrorPrefix| + |reason| + |ErrorSuffix|
    ensures text[|ErrorPrefix|..|text| - |ErrorSuffix|] == reason
    ensures text[|text| - |ErrorSuffix|..] == ErrorSuffix
  {
    ErrorPrefix + reason + ErrorSuffix
  }

  /** Whether a chat text is an error report. */
  predicate IsErrorText(text: string)
  {
    StartsWith(text, ErrorPrefix)
  }

  /** None of the other texts the handler sends reads as an error report. */
  lemma OnlyErrorRepliesAreErrors(transcript: string, reason: string)
    ensures IsErrorText(ErrorReply(reason))
    ensures !IsErrorText(Acknowledgement)
    ensures !IsErrorText(TranscribingStatus)
    ensures !IsErrorText(SendingStatus)
    ensures !IsErrorText(Completion(transcript))
  {
    assert Acknowledgement[0] != ErrorPrefix[0];
    assert TranscribingStatus[0] != ErrorPrefix[0];
    assert SendingStatus[0] != ErrorPrefix[0];
    assert Completion(transcript)[0] == '*';
  }

  lemma StatusesDiffer()
    ensures TranscribingStatus != SendingStatus
  {
    assert TranscribingStatus[0] != SendingStatus[0];
  }
}

=== FILE: naming.dfy ===
/**
 Working-file names built by `audio_handler`: the downloaded audio input
 and the two transcript outputs, all inside the `temp_files` directory
 and all derived from the sender id and a one-second timestamp.
 */
module Naming {

  import opened Strings
  import opened Classifier

  const TempDir := "temp_files"

  // ---------------------------------------------------------------------
  // Python's str(int) for the sender id, and its inverse int(s)

  predicate IsDigit(c: char)
  {
    '0' <= c <= '9'
  }

  predicate IsDigits(s: string)
  {
    forall i :: 0 <= i < |s| ==> IsDigit(s[i])
  }

  function DigitChar(d: nat): (c: char)
    requires d < 10
    ensures IsDigit(c)
  {
    ('0' as int + d) as char
  }

  function DigitValue(c: char): nat
    requires IsDigit(c)
  {
    c as int - '0' as int
  }

  /** Decimal digits of `n`, most significant first. */
  function NatToDecimal(n: nat): (r: string)
    ensures |r| >= 1
    ensures IsDigits(r)
    decreases n
  {
    if n < 10 then [DigitChar(n)] else NatToDecimal(n / 10) + [DigitChar(n % 10)]
  }

  function ParseDigits(s: string): nat
    requires IsDigits(s)
    decreases |s|
  {
    if |s| == 0 then 0 else ParseDigits(s[..|s| - 1]) * 10 + DigitValue(s[|s| - 1])
  }

  /** Python's `str(n)` for an integer: an optional minus sign, then digits. */
  function IntToDecimal(n: int): (r: string)
    ensures |r| >= 1
    ensures '_' !in r && '/' !in r && '.' !in r
  {
    var d := if n < 0 then "-" + NatToDecimal(-n) else NatToDecimal(n);
    assert forall i :: 0 <= i < |d| ==> d[i] == '-' || IsDigit(d[i]);
    d
  }

  predicate IsDecimal(s: string)
  {
    if |s| > 0 && s[0] == '-' then IsDigits(s[1..]) else IsDigits(s)
  }

  /** Python's `int(s)` on a decimal string. */
  function ParseInt(s: string): int
    requires IsDecimal(s)
  {
    if |s| > 0 && s[0] == '-' then -(ParseDigits(s[1..]) as int) else ParseDigits(s)
  }

  lemma {:induction false} ParseNatToDecimal(n: nat)
    ensures ParseDigits(NatToDecimal(n)) == n
    decreases n
  {
    if n >= 10 {
      ParseNatToDecimal(n / 10);
      var s := NatToDecimal(n);
      assert s[..|s| - 1] == NatToDecimal(n / 10);
    }
  }

  /** The rendering of a sender id reads back as the same id. */
  lemma IntDecimalRoundTrip(n: int)
    ensures IsDecimal(IntToDecimal(n))
    ensures ParseInt(IntToDecimal(n)) == n
  {
    if n < 0 {
      ParseNatToDecimal(-n);
      assert ("-" + NatToDecimal(-n))[1..] == NatToDecimal(-n);
    } else {
      ParseNatToDecimal(n);
    }
  }

  // ---------------------------------------------------------------------
  // File names

  /** `os.path.join(TEMP_DIR, name)` for a relative name. */
  function InTempDir(name: string): string
  {
    TempDir + "/" + name
  }

  /** `f"{kind}_{user_id}_{timestamp}"`. */
  function Stem(kind: string, uid: int, timestamp: string): string
  {
    kind + "_" + IntToDecimal(uid) + "_" + timestamp
  }

  /** `mime_type.split("/")[-1]`. */
  function Extension(mimeType: string): (ext: string)
  {
    var pieces := Split(mimeType, '/');
    pieces[|pieces| - 1]
  }

  /** The path the attachment is downloaded to. */
  function AudioPath(kind: MediaKind, uid: int, timestamp: string): string
  {
    match kind
    case VoiceNote => InTempDir(Stem("voice", uid, timestamp) + ".ogg")
    case AudioDocument(mimeType) => InTempDir(Stem("audio", uid, timestamp) + "." + Extension(mimeType))
  }

  function TextPath(uid: int, timestamp: string): string
  {
    InTempDir(Stem("transcription", uid, timestamp) + ".txt")
  }

  function PdfPath(uid: int, timestamp: string): string
  {
    InTempDir(Stem("transcription", uid, timestamp) + ".pdf")
  }

  // ---------------------------------------------------------------------
  // Properties

  /** The extension is exactly the text after the last `/` of the MIME
      type (the whole type when it has none), so it never holds a `/`. */
  lemma ExtensionAfterLastSlash(mimeType: string)
    ensures var ext := Extension(mimeType);
            && '/' !in ext
            && |ext| <= |mimeType|
            && mimeType[|mimeType| - |ext|..] == ext
            && ('/' in mimeType ==> |ext| < |mimeType| && mimeType[|mimeType| - |ext| - 1] == '/')
            && ('/' !in mimeType ==> ext == mimeType)
  {
    LastPieceFollowsLastSeparator(mimeType, '/');
    SplitPiecesLackSeparator(mimeType, '/', |Split(mimeType, '/')| - 1);
  }

  /** In `a_b` with `a` free of `_`, the first `_` sits right after `a`. */
  lemma FirstUnderscoreAt(a: string, b: string)
    requires '_' !in a
    ensures (a + "_" + b)[|a|] == '_'
    ensures forall i :: 0 <= i < |a| ==> (a + "_" + b)[i] != '_'
  {
    assert forall i :: 0 <= i < |a| ==> (a + "_" + b)[i] == a[i];
  }

  /** Two strings of the shape `a_b` with `a` free of `_` split the same way. */
  lemma {:induction false} SplitAtFirstUnderscore(a: string, b: string, c: string, d: string)
    requires '_' !in a && '_' !in c
    requires a + "_" + b == c + "_" + d
    ensures a == c && b == d
  {
    FirstUnderscoreAt(a, b);
    FirstUnderscoreAt(c, d);
    assert |a| == |c|;
    var s := a + "_" + b;
    assert a == s[..|a|] == c;
    assert b == s[|a| + 1..] == d;
  }

  /** Stems agree exactly when the sender ids and timestamps agree. */
  lemma StemDeterminesRun(kind: string, u1: int, t1: string, u2: int, t2: string)
    requires '_' !in kind
    ensures Stem(kind, u1, t1) == Stem(kind, u2, t2) <==> u1 == u2 && t1 == t2
  {
    if Stem(kind, u1, t1) == Stem(kind, u2, t2) {
      var r1 := IntToDecimal(u1) + "_" + t1;
      var r2 := IntToDecimal(u2) + "_" + t2;
      assert Stem(kind, u1, t1) == kind + "_" + r1;
      assert Stem(kind, u2, t2) == kind + "_" + r2;
      SplitAtFirstUnderscore(kind, r1, kind, r2);
      SplitAtFirstUnderscore(IntToDecimal(u1), t1, IntToDecimal(u2), t2);
      IntDecimalRoundTrip(u1);
      IntDecimalRoundTrip(u2);
    }
  }

  /** Stripping a shared directory prefix and a shared suffix. */
  lemma SameFrame(x: string, y: string, pre: string, post: string)
    requires pre + x + post == pre + y + post
    ensures x == y
  {
    var s := pre + x + post;
    assert x == s[|pre|..|s| - |post|];
    assert y == (pre + y + post)[|pre|..|s| - |post|];
  }

  /** A working-file name `{kind}_{uid}_{ts}{suffix}` in the temp
      directory determines the sender id and the timestamp. */
  lemma FileNameDeterminesRun(kind: string, suffix: string, u1: int, t1: string, u2: int, t2: string)
    requires '_' !in kind
    ensures InTempDir(Stem(kind, u1, t1) + suffix) == InTempDir(Stem(kind, u2, t2) + suffix)
            <==> u1 == u2 && t1 == t2
  {
    var pre := TempDir + "/";
    var s1 := Stem(kind, u1, t1);
    var s2 := Stem(kind, u2, t2);
    assert InTempDir(s1 + suffix) == pre + s1 + suffix;
    assert InTempDir(s2 + suffix) == pre + s2 + suffix;
    if InTempDir(s1 + suffix) == InTempDir(s2 + suffix) {
      SameFrame(s1, s2, pre, suffix);
      StemDeterminesRun(kind, u1, t1, u2, t2);
    }
  }

  /** The output paths of two runs coincide exactly when the sender id and
      the one-second timestamp coincide: different senders or seconds never
      share a path, and two runs of one sender in the same second do. */
  lemma OutputPathsDetermineRun(u1: int, t1: string, u2: int, t2: string)
    ensures TextPath(u1, t1) == TextPath(u2, t2) <==> u1 == u2 && t1 == t2
    ensures PdfPath(u1, t1) == PdfPath(u2, t2) <==> u1 == u2 && t1 == t2
  {
    FileNameDeterminesRun("transcription", ".txt", u1, t1, u2, t2);
    FileNameDeterminesRun("transcription", ".pdf", u1, t1, u2, t2);
  }

  /** Likewise for the audio input of two runs with the same media kind. */
  lemma AudioPathDeterminesRun(kind: MediaKind, u1: int, t1: string, u2: int, t2: string)
    ensures AudioPath(kind, u1, t1) == AudioPath(kind, u2, t2) <==> u1 == u2 && t1 == t2
  {
    match kind
    case VoiceNote =>
      FileNameDeterminesRun("voice", ".ogg", u1, t1, u2, t2);
    case AudioDocument(mimeType) =>
      var suffix := "." + Extension(mimeType);
      assert AudioPath(kind, u1, t1) == InTempDir(Stem("audio", u1, t1) + suffix);
      assert AudioPath(kind, u2, t2) == InTempDir(Stem("audio", u2, t2) + suffix);
      FileNameDeterminesRun("audio", suffix, u1, t1, u2, t2);
  }

  /** The `.txt` and `.pdf` outputs share the stem `transcription_{uid}_{ts}`
      and differ only in their extension; the audio input is a third,
      different file. */
  lemma WorkingFilesDistinct(kind: MediaKind, uid: int, timestamp: string)
    ensures var stem := TempDir + "/" + Stem("transcription", uid, timestamp);
            TextPath(uid, timestamp) == stem + ".txt" && PdfPath(uid, timestamp) == stem + ".pdf"
    ensures TextPath(uid, timestamp) != PdfPath(uid, timestamp)
    ensures AudioPath(kind, uid, timestamp) != TextPath(uid, timestamp)
    ensures AudioPath(kind, uid, timestamp) != PdfPath(uid, timestamp)
  {
    var t := TextPath(uid, timestamp);
    var p := PdfPath(uid, timestamp);
    var a := AudioPath(kind, uid, timestamp);
    assert t[|t| - 1] == 't' && p[|p| - 1] == 'f';
    var k := |TempDir + "/"|;
    assert t[k] == 't' && p[k] == 't';
    assert a[k] == 'v' || a[k] == 'a';
  }
}

=== FILE: pdf.dfy ===
/**
 What `create_pdf` puts into the document: the title and date line, and
 the body paragraphs. The body is the transcript split on `\n`, with the
 paragraphs that are blank after `strip()` dropped and every character
 outside Latin-1 replaced by `?`. If laying out a paragraph raises, the
 paragraphs already drawn stay and a fixed notice follows them.
 */
module Pdf {

  import opened Wrappers
  import opened Strings

  // ---------------------------------------------------------------------
  // Python's str.strip()

  /** Python's `str.isspace()` for one character. */
  predicate IsWhitespace(c: char)
  {
    var n := c as int;
    || 0x09 <= n <= 0x0D
    || 0x1C <= n <= 0x20
    || n == 0x85 || n == 0xA0 || n == 0x1680
    || 0x2000 <= n <= 0x200A
    || n == 0x2028 || n == 0x2029 || n == 0x202F || n == 0x205F || n == 0x3000
  }

  /** `s.lstrip()`: a suffix of `s`. */
  function TrimStart(s: string): (r: string)
    ensures |r| <= |s| && r == s[|s| - |r|..]
    decreases |s|
  {
    if |s| > 0 && IsWhitespace(s[0]) then TrimStart(s[1..]) else s
  }

  /** What `lstrip` removes is whitespace, and what it keeps does not start
      with whitespace. */
  lemma TrimStartFacts(s: string)
    ensures forall i :: 0 <= i < |s| - |TrimStart(s)| ==> IsWhitespace(s[i])
    ensures |TrimStart(s)| == 0 || !IsWhitespace(TrimStart(s)[0])
  {
    TrimStartRemovesWhitespace(s);
    TrimStartKeepsNoLeadingSpace(s);
  }

  lemma {:induction false} TrimStartRemovesWhitespace(s: string)
    ensures forall i :: 0 <= i < |s| - |TrimStart(s)| ==> IsWhitespace(s[i])
    decreases |s|
  {
    if |s| > 0 && IsWhitespace(s[0]) {
      TrimStartRemovesWhitespace(s[1..]);
      LeadingWhitespace(s, |TrimStart(s[1..])|);
    }
  }

  lemma {:induction false} TrimStartKeepsNoLeadingSpace(s: string)
    ensures |TrimStart(s)| == 0 || !IsWhitespace(TrimStart(s)[0])
    decreases |s|
  {
    if |s| > 0 && IsWhitespace(s[0]) {
      TrimStartKeepsNoLeadingSpace(s[1..]);
    }
  }

  /** A whitespace character followed by `n` characters of whitespace
      and then anything is a run of `n + 1` whitespace characters. */
  lemma LeadingWhitespace(s: string, n: nat)
    requires |s| > 0 && IsWhitespace(s[0]) && n <= |s| - 1
    requires forall j :: 0 <= j < |s| - 1 - n ==> IsWhitespace(s[1..][j])
    ensures forall i :: 0 <= i < |s| - n ==> IsWhitespace(s[i])
  {
    forall i | 0 < i < |s| - n
      ensures IsWhitespace(s[i])
    {
      assert s[i] == s[1..][i - 1];
    }
  }

  /** `s.rstrip()`: a prefix of `s`. */
  function TrimEnd(s: string): (r: string)
    ensures |r| <= |s| && r == s[..|r|]
    decreases |s|
  {
    if |s| > 0 && IsWhitespace(s[|s| - 1]) then TrimEnd(s[..|s| - 1]) else s
  }

  /** What `rstrip` removes is whitespace, and what it keeps does not end
      with whitespace. */
  lemma {:induction false} TrimEndFacts(s: string)
    ensures forall i :: |TrimEnd(s)| <= i < |s| ==> IsWhitespace(s[i])
    ensures |TrimEnd(s)| == 0 || !IsWhitespace(TrimEnd(s)[|TrimEnd(s)| - 1])
    decreases |s|
  {
    if |s| > 0 && IsWhitespace(s[|s| - 1]) {
      var r := TrimEnd(s[..|s| - 1]);
      TrimEndFacts(s[..|s| - 1]);
      assert TrimEnd(s) == r;
      forall i | |r| <= i < |s|
        ensures IsWhitespace(s[i])
      {
        if i < |s| - 1 {
          assert s[i] == s[..|s| - 1][i];
        }
      }
    } else {
      assert TrimEnd(s) == s;
    }
  }

  function Strip(s: string): string
  {
    TrimEnd(TrimStart(s))
  }

  predicate HasText(s: string)
  {
    exists i :: 0 <= i < |s| && !IsWhitespace(s[i])
  }

  /** `para.strip()` is truthy exactly when the paragraph holds a
      non-whitespace character. */
  lemma StripEmptyIffBlank(s: string)
    ensures Strip(s) != "" <==> HasText(s)
  {
    var l := TrimStart(s);
    TrimStartFacts(s);
    TrimEndFacts(l);
    if HasText(s) {
      var i :| 0 <= i < |s| && !IsWhitespace(s[i]);
      assert |l| > 0;
    }
    if Strip(s) != "" {
      var r := Strip(s);
      assert r[0] == l[0] == s[|s| - |l|];
    }
  }

  // ---------------------------------------------------------------------
  // text.encode("latin-1", "replace").decode("latin-1")

  newtype byte = x: int | 0 <= x < 256

  const Replacement: char := '?'

  predicate IsLatin1(s: string)
  {
    forall i :: 0 <= i < |s| ==> s[i] as int < 256
  }

  /** One character under the `replace` error handler: its code point if
      that fits a byte, the code of `?` otherwise. */
  function EncodeChar(c: char): byte
  {
    if c as int < 256 then c as int as byte else Replacement as int as byte
  }

  /** Latin-1 encoding with the `replace` error handler: one byte per
      character. */
  function EncodeLatin1(s: string): (b: seq<byte>)
    ensures |b| == |s|
    decreases |s|
  {
    if |s| == 0 then [] else [EncodeChar(s[0])] + EncodeLatin1(s[1..])
  }

  /** Latin-1 decoding: every byte is the character with that code point. */
  function DecodeLatin1(b: seq<byte>): (s: string)
    ensures |s| == |b|
    decreases |b|
  {
    if |b| == 0 then [] else [b[0] as int as char] + DecodeLatin1(b[1..])
  }

  lemma {:induction false} EncodeLatin1At(s: string, i: nat)
    requires i < |s|
    ensures EncodeLatin1(s)[i] == EncodeChar(s[i])
    decreases i
  {
    if i > 0 {
      EncodeLatin1At(s[1..], i - 1);
    }
  }

  lemma {:induction false} DecodeLatin1At(b: seq<byte>, i: nat)
    requires i < |b|
    ensures DecodeLatin1(b)[i] == b[i] as int as char
    decreases i
  {
    if i > 0 {
      DecodeLatin1At(b[1..], i - 1);
    }
  }

  /** What the round trip makes of one character. */
  function Latin1Char(c: char): char
  {
    if c as int < 256 then c else Replacement
  }

  /** The round trip in `create_pdf`. */
  function ToLatin1(s: string): (r: string)
    ensures |r| == |s|
  {
    DecodeLatin1(EncodeLatin1(s))
  }

  /** The round trip keeps each Latin-1 character and replaces every other
      one by `?`, so its result is all Latin-1. */
  lemma ToLatin1Chars(s: string)
    ensures forall i :: 0 <= i < |s| ==> ToLatin1(s)[i] == Latin1Char(s[i])
    ensures IsLatin1(ToLatin1(s))
  {
    forall i | 0 <= i < |s|
      ensures ToLatin1(s)[i] == Latin1Char(s[i])
    {
      EncodeLatin1At(s, i);
      DecodeLatin1At(EncodeLatin1(s), i);
    }
  }

  /** The round trip changes a string exactly when it holds a character
      outside Latin-1, and applying it twice is applying it once. */
  lemma ToLatin1Fixes(s: string)
    ensures ToLatin1(s) == s <==> IsLatin1(s)
    ensures ToLatin1(ToLatin1(s)) == ToLatin1(s)
  {
    ToLatin1Chars(s);
    ToLatin1Chars(ToLatin1(s));
    if ToLatin1(s) == s {
      assert IsLatin1(s);
    }
  }

  /** Replacement never blanks a paragraph: a non-whitespace character
      stays, or becomes the non-whitespace `?`. */
  lemma ToLatin1KeepsText(s: string)
    requires HasText(s)
    ensures HasText(ToLatin1(s))
  {
    var i :| 0 <= i < |s| && !IsWhitespace(s[i]);
    ToLatin1Chars(s);
    assert !IsWhitespace(ToLatin1(s)[i]);
  }

  // ---------------------------------------------------------------------
  // Paragraphs

  /** One iteration of the loop in `create_pdf`: a blank piece draws
      nothing, any other is drawn after the Latin-1 round trip. The guard
      is stated as `HasText`; `StripGuard` shows it is the loop's
      `strip()` test. */
  function RenderPiece(piece: string): (drawn: seq<string>)
    ensures |drawn| <= 1
  {
    if HasText(piece) then [ToLatin1(piece)] else []
  }

  /** The loop draws a piece exactly when `piece.strip()` is non-empty. */
  lemma StripGuard(piece: string)
    ensures RenderPiece(piece) == if Strip(piece) != "" then [ToLatin1(piece)] else []
  {
    StripEmptyIffBlank(piece);
  }

  /** The loop over `text.split("\n")`. */
  function RenderPieces(pieces: seq<string>): (paras: seq<string>)
    ensures |paras| <= |pieces|
    decreases |pieces|
  {
    if |pieces| == 0 then [] else RenderPiece(pieces[0]) + RenderPieces(pieces[1..])
  }

  function Paragraphs(text: string): seq<string>
  {
    RenderPieces(Split(text, '\n'))
  }

  /** A drawn piece is printable Latin-1 and holds a non-whitespace
      character; a piece that already is both is drawn unchanged. */
  lemma RenderPieceFacts(piece: string)
    ensures |RenderPiece(piece)| == 1 ==>
              IsLatin1(RenderPiece(piece)[0]) && HasText(RenderPiece(piece)[0])
    ensures IsLatin1(piece) && HasText(piece) ==> RenderPiece(piece) == [piece]
  {
    StripEmptyIffBlank(piece);
    ToLatin1Chars(piece);
    if HasText(piece) {
      ToLatin1KeepsText(piece);
      ToLatin1Fixes(piece);
    }
  }

  lemma IndexPastPrefix<T>(a: seq<T>, b: seq<T>, k: nat)
    requires |a| <= k < |a| + |b|
    ensures (a + b)[k] == b[k - |a|]
  {
  }

  /** Every drawn paragraph is printable in the document's single-byte
      font. */
  lemma {:induction false} RenderedAreLatin1(pieces: seq<string>, k: nat)
    requires k < |RenderPieces(pieces)|
    ensures IsLatin1(RenderPieces(pieces)[k])
    decreases |pieces|
  {
    var h := RenderPiece(pieces[0]);
    var rest := RenderPieces(pieces[1..]);
    assert RenderPieces(pieces) == h + rest;
    if k < |h| {
      RenderPieceFacts(pieces[0]);
      assert RenderPieces(pieces)[k] == h[0];
    } else {
      IndexPastPrefix(h, rest, k);
      RenderedAreLatin1(pieces[1..], k - |h|);
    }
  }

  /** Every drawn paragraph holds a non-whitespace character. */
  lemma {:induction false} RenderedHaveText(pieces: seq<string>, k: nat)
    requires k < |RenderPieces(pieces)|
    ensures HasText(RenderPieces(pieces)[k])
    decreases |pieces|
  {
    var h := RenderPiece(pieces[0]);
    var rest := RenderPieces(pieces[1..]);
    assert RenderPieces(pieces) == h + rest;
    if k < |h| {
      RenderPieceFacts(pieces[0]);
      assert RenderPieces(pieces)[k] == h[0];
    } else {
      IndexPastPrefix(h, rest, k);
      RenderedHaveText(pieces[1..], k - |h|);
    }
  }

  /** Every drawn paragraph is the round trip of a piece with text. */
  lemma {:induction false} RenderedComeFromPieces(pieces: seq<string>, k: nat)
    requires k < |RenderPieces(pieces)|
    ensures exists i :: 0 <= i < |pieces| && HasText(pieces[i])
                        && RenderPieces(pieces)[k] == ToLatin1(pieces[i])
    decreases |pieces|
  {
    var h := RenderPiece(pieces[0]);
    var rest := RenderPieces(pieces[1..]);
    assert RenderPieces(pieces) == h + rest;
    if k < |h| {
      assert RenderPieces(pieces)[k] == ToLatin1(pieces[0]);
    } else {
      IndexPastPrefix(h, rest, k);
      RenderedComeFromPieces(pieces[1..], k - |h|);
      var i :| 0 <= i < |pieces| - 1 && HasText(pieces[1..][i])
               && rest[k - |h|] == ToLatin1(pieces[1..][i]);
      assert pieces[1..][i] == pieces[i + 1];
    }
  }

  /** Every piece with text is drawn. */
  lemma {:induction false} TextPiecesAreRendered(pieces: seq<string>, i: nat)
    requires i < |pieces| && HasText(pieces[i])
    ensures ToLatin1(pieces[i]) in RenderPieces(pieces)
    decreases |pieces|
  {
    var h := RenderPiece(pieces[0]);
    var rest := RenderPieces(pieces[1..]);
    assert RenderPieces(pieces) == h + rest;
    if i > 0 {
      assert pieces[1..][i - 1] == pieces[i];
      TextPiecesAreRendered(pieces[1..], i - 1);
    }
  }

  lemma {:induction false} RenderPiecesAppend(a: seq<string>, b: seq<string>)
    ensures RenderPieces(a + b) == RenderPieces(a) + RenderPieces(b)
    decreases |a|
  {
    if |a| == 0 {
      assert a + b == b;
    } else {
      var h := RenderPiece(a[0]);
      assert (a + b)[0] == a[0];
      assert (a + b)[1..] == a[1..] + b;
      RenderPiecesAppend(a[1..], b);
      calc {
        RenderPieces(a + b);
        h + RenderPieces(a[1..] + b);
        h + (RenderPieces(a[1..]) + RenderPieces(b));
        (h + RenderPieces(a[1..])) + RenderPieces(b);
      }
    }
  }

  /** The paragraphs of two `\n`-separated texts are the paragraphs of the
      first followed by those of the second: order is kept. */
  lemma ParagraphsAround(a: string, b: string)
    ensures Paragraphs(a + "\n" + b) == Paragraphs(a) + Paragraphs(b)
  {
    SplitAround(a, b, '\n');
    RenderPiecesAppend(Split(a, '\n'), Split(b, '\n'));
  }

  /** A single line becomes one paragraph of the same length, with only
      non-Latin-1 characters replaced, unless it is blank. */
  lemma ParagraphsOfLine(line: string)
    requires '\n' !in line
    ensures HasText(line) ==> Paragraphs(line) == [ToLatin1(line)]
    ensures !HasText(line) ==> Paragraphs(line) == []
  {
    SplitWithoutSeparator(line, '\n');
    assert Paragraphs(line) == RenderPiece(line) + RenderPieces([]);
  }

  /** A Latin-1 transcript without blank lines loses nothing: joining its
      paragraphs with `\n` gives it back. */
  lemma {:induction false} ParagraphsLossless(text: string)
    requires IsLatin1(text)
    requires forall p :: p in Split(text, '\n') ==> HasText(p)
    ensures |Paragraphs(text)| >= 1 && JoinWith(Paragraphs(text), '\n') == text
  {
    var pieces := Split(text, '\n');
    JoinSplit(text, '\n');
    forall i | 0 <= i < |pieces|
      ensures IsLatin1(pieces[i]) && HasText(pieces[i])
    {
      PieceOfLatin1IsLatin1(text, '\n', i);
    }
    RenderKeepsFixedPieces(pieces);
  }

  lemma {:induction false} RenderKeepsFixedPieces(pieces: seq<string>)
    requires forall i :: 0 <= i < |pieces| ==> IsLatin1(pieces[i]) && HasText(pieces[i])
    ensures RenderPieces(pieces) == pieces
    decreases |pieces|
  {
    if |pieces| > 0 {
      RenderPieceFacts(pieces[0]);
      assert forall i :: 0 <= i < |pieces| - 1 ==> pieces[1..][i] == pieces[i + 1];
      RenderKeepsFixedPieces(pieces[1..]);
      assert RenderPieces(pieces) == RenderPiece(pieces[0]) + RenderPieces(pieces[1..]);
      assert pieces == [pieces[0]] + pieces[1..];
    }
  }

  /** Every piece of a split of a Latin-1 string is Latin-1. */
  lemma {:induction false} PieceOfLatin1IsLatin1(s: string, sep: char, k: nat)
    requires IsLatin1(s)
    requires k < |Split(s, sep)|
    ensures IsLatin1(Split(s, sep)[k])
    decreases |s|
  {
    if |s| > 0 {
      var rest := Split(s[1..], sep);
      assert IsLatin1(s[1..]);
      if s[0] == sep {
        if k > 0 {
          PieceOfLatin1IsLatin1(s[1..], sep, k - 1);
        }
      } else if k == 0 {
        PieceOfLatin1IsLatin1(s[1..], sep, 0);
        assert Split(s, sep)[0] == [s[0]] + rest[0];
      } else {
        PieceOfLatin1IsLatin1(s[1..], sep, k);
      }
    }
  }

  // ---------------------------------------------------------------------
  // The document

  /** The fixed paragraph drawn in place of the rest of the transcript
      when laying out a paragraph raises. */
  const EncodingNotice := "Error encoding " + "some characters. " + "Please check " + "the text file."

  lemma NoticeIsLatin1()
    ensures IsLatin1(EncodingNotice)
  {
  }

  const DocumentTitle := "Audio Transcription"

  /** The body drawn under the date line. `layoutFault == Some(k)` says that
      laying out paragraph `k` raised inside the `try`; a `k` past the last
      paragraph means nothing raised. */
  function Body(text: string, layoutFault: Option<nat>): (body: seq<string>)
    ensures var paras := Paragraphs(text);
            || body == paras
            || (&& |body| >= 1
                && body[|body| - 1] == EncodingNotice
                && |body| - 1 < |paras|
                && body[..|body| - 1] == paras[..|body| - 1])
    ensures layoutFault.None? ==> body == Paragraphs(text)
    ensures layoutFault.Some? && layoutFault.value >= |Paragraphs(text)| ==>
              body == Paragraphs(text)
    ensures layoutFault.Some? && layoutFault.value < |Paragraphs(text)| ==>
              && |body| == layoutFault.value + 1
              && body[layoutFault.value] == EncodingNotice
              && body[..layoutFault.value] == Paragraphs(text)[..layoutFault.value]
  {
    var paras := Paragraphs(text);
    match layoutFault
    case Some(k) =>
      if k < |paras| then paras[..k] + [EncodingNotice] else paras
    case None => paras
  }

  /** A document as the model sees it: the header title, the date line and
      the body paragraphs; fonts, geometry and pagination are not modelled. */
  datatype PdfDoc = PdfDoc(title: string, dateLine: string, body: seq<string>)

  function CreatePdf(text: string, date: string, layoutFault: Option<nat>): PdfDoc
  {
    PdfDoc(DocumentTitle, "Date: " + date, Body(text, layoutFault))
  }

  /** Every paragraph of a transcript is printable Latin-1. */
  lemma ParagraphsAreLatin1(text: string)
    ensures forall i :: 0 <= i < |Paragraphs(text)| ==> IsLatin1(Paragraphs(text)[i])
  {
    forall i | 0 <= i < |Paragraphs(text)|
      ensures IsLatin1(Paragraphs(text)[i])
    {
      RenderedAreLatin1(Split(text, '\n'), i);
    }
  }

  /** Every line of a document body is printable in the document's
      single-byte font: rendering never fails for encoding reasons. */
  lemma BodyIsLatin1(text: string, layoutFault: Option<nat>)
    ensures forall i :: 0 <= i < |Body(text, layoutFault)| ==> IsLatin1(Body(text, layoutFault)[i])
  {
    var paras := Paragraphs(text);
    ParagraphsAreLatin1(text);
    if layoutFault.Some? && layoutFault.value < |paras| {
      NoticeIsLatin1();
      CutWithNotice(paras, layoutFault.value, EncodingNotice);
    }
  }

  /** Cutting a list of Latin-1 lines and appending a Latin-1 line keeps
      every line Latin-1. */
  lemma CutWithNotice(paras: seq<string>, k: nat, notice: string)
    requires k <= |paras|
    requires forall i :: 0 <= i < |paras| ==> IsLatin1(paras[i])
    requires IsLatin1(notice)
    ensures forall i :: 0 <= i < k + 1 ==> IsLatin1((paras[..k] + [notice])[i])
  {
  }
}

=== FILE: strings.dfy ===
/**
 String helpers shared by the model: prefix tests, Python's `str.split`
 on a single separator character and its inverse `sep.join`, and
 repetition (`'-' * 50`).
 */
module Strings {

  /** Python's `s.startswith(prefix)`. */
  predicate StartsWith(s: string, prefix: string)
  {
    |prefix| <= |s| && s[..|prefix|] == prefix
  }

  /** Python's `c * n` for a one-character string `c`. */
  function Repeat(c: char, n: nat): (r: string)
    ensures |r| == n
    ensures forall i :: 0 <= i < n ==> r[i] == c
  {
    if n == 0 then "" else [c] + Repeat(c, n - 1)
  }

  /** Python's `s.split(sep)` for a one-character separator: the pieces
      between separators, including empty ones; never an empty list. */
  function Split(s: string, sep: char): (pieces: seq<string>)
    ensures |pieces| >= 1
    decreases |s|
  {
    if |s| == 0 then [""]
    else
      var rest := Split(s[1..], sep);
      if s[0] == sep then [""] + rest
      else [[s[0]] + rest[0]] + rest[1..]
  }

  /** A string splits into more than one piece exactly when it holds the
      separator; without one, the only piece is the string itself. */
  lemma {:induction false} SplitWithoutSeparator(s: string, sep: char)
    ensures |Split(s, sep)| == 1 <==> sep !in s
    ensures sep !in s ==> Split(s, sep) == [s]
    decreases |s|
  {
    if |s| > 0 {
      SplitWithoutSeparator(s[1..], sep);
      assert s == [s[0]] + s[1..];
      assert sep in s <==> s[0] == sep || sep in s[1..];
    }
  }

  /** No piece of a split holds the separator. */
  lemma {:induction false} SplitPiecesLackSeparator(s: string, sep: char, k: nat)
    requires k < |Split(s, sep)|
    ensures sep !in Split(s, sep)[k]
    decreases |s|
  {
    if |s| > 0 {
      var rest := Split(s[1..], sep);
      if s[0] == sep {
        if k > 0 {
          SplitPiecesLackSeparator(s[1..], sep, k - 1);
        }
      } else if k == 0 {
        SplitPiecesLackSeparator(s[1..], sep, 0);
      } else {
        SplitPiecesLackSeparator(s[1..], sep, k);
      }
    }
  }

  /** Python's `sep.join(pieces)` for a non-empty list. */
  function JoinWith(pieces: seq<string>, sep: char): string
    requires |pieces| >= 1
    decreases |pieces|
  {
    if |pieces| == 1 then pieces[0]
    else pieces[0] + [sep] + JoinWith(pieces[1..], sep)
  }

  /** Joining the pieces of a split gives back the original string. */
  lemma {:induction false} JoinSplit(s: string, sep: char)
    ensures JoinWith(Split(s, sep), sep) == s
    decreases |s|
  {
    if |s| > 0 {
      var rest := Split(s[1..], sep);
      JoinSplit(s[1..], sep);
      if s[0] == sep {
        assert Split(s, sep) == [""] + rest;
        assert ([""] + rest)[1..] == rest;
      } else if |rest| == 1 {
        assert Split(s, sep) == [[s[0]] + rest[0]];
      } else {
        var ps := Split(s, sep);
        assert ps == [[s[0]] + rest[0]] + rest[1..];
        assert ps[1..] == rest[1..];
        assert JoinWith(rest, sep) == rest[0] + [sep] + JoinWith(rest[1..], sep);
      }
    }
  }

  /** Splitting distributes over a separator: the pieces of `a`, then the
      pieces of `b`. */
  lemma {:induction false} SplitAround(a: string, b: string, sep: char)
    ensures Split(a + [sep] + b, sep) == Split(a, sep) + Split(b, sep)
    decreases |a|
  {
    var s := a + [sep] + b;
    if |a| == 0 {
      assert s == [sep] + b;
      assert s[1..] == b;
    } else {
      assert s[0] == a[0];
      assert s[1..] == a[1..] + [sep] + b;
      SplitAround(a[1..], b, sep);
      var ra := Split(a[1..], sep);
      var rb := Split(b, sep);
      if a[0] != sep {
        assert Split(s, sep) == [[a[0]] + (ra + rb)[0]] + (ra + rb)[1..];
        GlueFirstPiece([a[0]], ra, rb);
      } else {
        assert Split(s, sep) == [""] + (ra + rb);
      }
    }
  }

  /** Prefixing the first piece of a list commutes with appending more
      pieces after it. */
  lemma GlueFirstPiece(x: string, ra: seq<string>, rb: seq<string>)
    requires |ra| >= 1
    ensures [x + (ra + rb)[0]] + (ra + rb)[1..] == ([x + ra[0]] + ra[1..]) + rb
  {
    assert (ra + rb)[0] == ra[0];
    assert (ra + rb)[1..] == ra[1..] + rb;
  }

  /** Splitting a join of separator-free pieces gives the pieces back. */
  lemma {:induction false} SplitJoin(pieces: seq<string>, sep: char)
    requires |pieces| >= 1
    requires forall i :: 0 <= i < |pieces| ==> sep !in pieces[i]
    ensures Split(JoinWith(pieces, sep), sep) == pieces
    decreases |pieces|
  {
    SplitWithoutSeparator(pieces[0], sep);
    if |pieces| > 1 {
      SplitJoin(pieces[1..], sep);
      SplitAround(pieces[0], JoinWith(pieces[1..], sep), sep);
      assert [pieces[0]] + pieces[1..] == pieces;
    }
  }

  /** The last piece of a split is a separator-free suffix that is either
      the whole string or directly preceded by a separator, i.e. the text
      after the last separator (Python's `s.split(sep)[-1]`). */
  lemma {:induction false} LastPieceFollowsLastSeparator(s: string, sep: char)
    ensures var ps := Split(s, sep);
            var e := ps[|ps| - 1];
            && |e| <= |s|
            && s[|s| - |e|..] == e
            && (|e| < |s| ==> s[|s| - |e| - 1] == sep)
    decreases |s|
  {
    if |s| > 0 {
      LastPieceFollowsLastSeparator(s[1..], sep);
      var rest := Split(s[1..], sep);
      var ps := Split(s, sep);
      if s[0] == sep {
        assert ps[|ps| - 1] == rest[|rest| - 1];
      } else if |rest| > 1 {
        SplitWithoutSeparator(s[1..], sep);
        SplitPiecesLackSeparator(s[1..], sep, |rest| - 1);
        assert ps == [[s[0]] + rest[0]] + rest[1..];
        assert ps[|ps| - 1] == rest[|rest| - 1];
      } else {
        SplitWithoutSeparator(s[1..], sep);
        assert s == [s[0]] + s[1..];
        assert ps == [s];
      }
    }
  }
}

=== FILE: text_artifact.dfy ===
/**
 The `.txt` transcript artifact: a fixed three-line header and a blank
 line, then the transcript exactly as the transcription service returned
 it (no character substitution).
 */
module TextArtifact {

  import opened Strings

  const Title := "Audio Transcription"
  const RuleWidth: nat := 50

  /** The separator line, `'-' * 50`. */
  function Rule(): (r: string)
    ensures |r| == RuleWidth
    ensures forall i :: 0 <= i < |r| ==> r[i] == '-'
    ensures '\n' !in r
  {
    Repeat('-', RuleWidth)
  }

  /** The file content: the four writes of the handler, in order — the
      title line, the date line (`date` is the formatted wall-clock time
      at the moment of writing), the rule followed by a blank line, and the
      transcript. */
  function Compose(date: string, transcript: string): (content: string)
    ensures |content| == |Title| + |date| + RuleWidth + 10 + |transcript|
    ensures StartsWith(content, Title + "\n")
    ensures content[|Title| + 1..|Title| + 7 + |date|] == "Date: " + date
    ensures content[|Title| + 7 + |date|] == '\n'
    ensures content[|Title| + 8 + |date|..|content| - |transcript|] == Rule() + "\n\n"
    ensures content[|content| - |transcript|..] == transcript
  {
    Title + "\n" + (("Date: " + date) + "\n" + (Rule() + "\n" + ("\n" + transcript)))
  }

  lemma TitleIsOneLine()
    ensures '\n' !in Title
  {
    assert forall i :: 0 <= i < |Title| ==> Title[i] != '\n';
  }

  /** A reader's view of the artifact: drop the first `k` lines together
      with their line terminators. */
  function DropLines(s: string, k: nat): string
    decreases |s|
  {
    if k == 0 || |s| == 0 then s
    else if s[0] == '\n' then DropLines(s[1..], k - 1)
    else DropLines(s[1..], k)
  }

  lemma {:induction false} DropLine(line: string, rest: string, k: nat)
    requires '\n' !in line
    ensures DropLines(line + "\n" + rest, k + 1) == DropLines(rest, k)
    decreases |line|
  {
    var s := line + "\n" + rest;
    if |line| == 0 {
      assert s == "\n" + rest;
      assert s[1..] == rest;
    } else {
      assert s[1..] == line[1..] + "\n" + rest;
      DropLine(line[1..], rest, k);
    }
  }

  /** Skipping the four header lines of the artifact gives back the
      transcript verbatim, whatever it contains, provided the date stamp is
      a single line. */
  lemma {:induction false} TranscriptReadsBack(date: string, transcript: string)
    requires '\n' !in date
    ensures DropLines(Compose(date, transcript), 4) == transcript
  {
    var r3 := "\n" + transcript;
    var r2 := Rule() + "\n" + r3;
    var r1 := ("Date: " + date) + "\n" + r2;
    assert '\n' !in "Date: " + date;
    assert r3 == "" + "\n" + transcript;
    TitleIsOneLine();
    DropLine(Title, r1, 3);
    DropLine("Date: " + date, r2, 2);
    DropLine(Rule(), r3, 1);
    DropLine("", transcript, 0);
  }
}

=== FILE: wrappers.dfy ===
/** Optional values, standing in for Python's `None`. */
module Wrappers {

  datatype Option<+T> = None | Some(value: T)
}
